=== FILE: README.md ===
# Secure SQLite bundle: key provisioning and `openDatabase` override

This project is a Dafny model of the logic in `www/outsystems-secure-sqlite-init.js`. That file is the Cordova shim. It makes every SQLCipher database open with a per-install Local Storage Key (LSK) kept in an authenticated key store. The model covers four pieces, each written as pure functions over immutable data:

- **Key provisioning.** `acquireLsk`, its inner `initFn` and `rewriteLsk`, modelled in `provisioning.dfy`. A process cache answers repeat calls. Otherwise the key store `outsystems-key-store` is opened. The entry `outsystems-local-storage-key` is read and written back as a best-effort migration. The entry names are listed. Then the existing key is read, or a fresh one is generated and stored. A failure of the migration `get` or `set` is swallowed, and the keys continuation runs anyway. Every other collaborator failure goes to exactly one of these: the error continuation, leaving the app (possibly after a notice), or device remediation followed by a retry.
- **Key generation.** `generateKey`/`makeVisible`, modelled in `key_gen.dfy`. Sixteen random bytes are mapped one by one to code points.
- **The `openDatabase` override.** Modelled in `interceptor.dfy`. An options object that already has a string `key` is passed through, with only `location` defaulted. Otherwise the LSK is acquired and put on a copy of the caller's own properties.
- **`validateDbOptions`.** Also in `interceptor.dfy`. It is defined in the source but never called.

How the model is built:

- **The store and the callbacks.** The key store is a map from entry name to string (`SecureStore.Store`). Each asynchronous collaborator call completes according to a script of `Attempt`s, one per pass of `initFn`. An `Attempt` holds:
  - the open result and the migration `get`/`set` results;
  - the `keys`, `get` and `set` results;
  - the user's answer to the secure-device prompt and the `secureDevice` result;
  - the 16 bytes the random source draws.

  Remediation moves on to the next `Attempt`. A script that runs out while the code would still be retrying gives the outcome `Unresolved`.
- **What a run records.** Every call into the store, every dialog, the exit and the continuation that is called are recorded as `Event`s. A run is the outcome, the new cache, the new store, and the calls made before the acquisition settled. The full event trace is those calls followed by the events that settle the outcome (`Provisioning.Trace`). An exit carries whether, and which, notice was shown before it.
- **Coherent stores.** `Coherent(store, script)` says that every scripted read and listing agrees with the map. Only failures are then free. The store-level guarantees are proved under that assumption.
- **A second formulation.** `provisioning_machine.dfy` restates provisioning as an explicit transition system: Opening, Migrating, Listing, ReadingExisting / Generating, Remediating, Done. It is written independently of the callback-shaped model, and `MachineAgreesWithAcquire` proves the two agree on every input.

Modelling choices that follow JavaScript:

- The process cache is a JavaScript value. It starts as `""` and a hit is JavaScript truthiness.
- `keys.indexOf(name) >= 0` is modelled as `ArrayIndexOf`.
- `message.indexOf("MIGRATION FAILED") === 0` is modelled as `IndexOf`. A lemma proves it is the prefix test.
- `error.code == "OS-PLUG-KSTR-0010"` is loose equality against a non-numeric string literal. For the values modelled, that is the same as equality with that string.

**Key characters.** The keys are commonly described as printable ASCII. The model follows the code instead: bytes 0..94 map to 32..126, and bytes 95..255 map to 161..321. Those upper code points lie in the Latin-1 supplement and Latin Extended-A blocks, not ASCII. They are mostly letters, but 161..191, 215 and 247 are symbols and 173 is the soft hyphen, which is normally not displayed. What the code does guarantee, and the model proves, is that no key character is a C0 control, DEL or a C1 control (never 0..31 and never 127..160). `KeyGen.GenerateKey` states this; `KeyGen.IsKeyCode` names the band.

## Model

| member | source | states |
|---|---|---|
| JsValues.IndexOf | www/outsystems-secure-sqlite-init.js:102 | `String.prototype.indexOf`: -1 or a position in the string; an occurrence of the pattern starts there and none starts earlier |
| JsValues.Truthy | www/outsystems-secure-sqlite-init.js:28 | `if (lskCache)`: a value is falsy exactly when it is `undefined`, `null`, `false`, `0` or `""` |
| JsValues.IndexOfZeroIsPrefix | www/outsystems-secure-sqlite-init.js:102 | `message.indexOf("MIGRATION FAILED") === 0` holds exactly when the message starts with that marker |
| JsValues.ArrayIndexOf | www/outsystems-secure-sqlite-init.js:42 | `keys.indexOf(name)` is non-negative exactly when the name is listed, and then it is the first position where it appears |
| KeyGen.MakeVisible | www/outsystems-secure-sqlite-init.js:150-154 | every byte maps into 32..126 ∪ 161..321; the result stays in ASCII exactly for bytes below 95 |
| KeyGen.ByteOf | www/outsystems-secure-sqlite-init.js:150-154 | the inverse mapping is defined exactly on the code points `makeVisible` can produce |
| KeyGen.ByteOfMakeVisible | www/outsystems-secure-sqlite-init.js:150-154 | `makeVisible` loses no information: the byte is recovered from its code point |
| KeyGen.MakeVisibleOnto | www/outsystems-secure-sqlite-init.js:150-154 | every code point in 32..126 ∪ 161..321 is produced by some byte, so the mapping is a bijection onto that band |
| KeyGen.MakeVisibleIncreasing | www/outsystems-secure-sqlite-init.js:150-154 | `makeVisible` is strictly increasing, hence injective |
| KeyGen.VisibleChar | www/outsystems-secure-sqlite-init.js:160-162 | `String.fromCharCode(makeVisible(c))` is a character of the key band, and the byte is recovered from it |
| KeyGen.MapVisible | www/outsystems-secure-sqlite-init.js:158-162 | the per-byte map and `join("")` keep length, and character i comes from byte i |
| KeyGen.GenerateKey | www/outsystems-secure-sqlite-init.js:148-163 | a key has exactly 16 characters, character i being `makeVisible` of drawn byte i, each in 32..126 ∪ 161..321 (no C0 control, DEL or C1 control), none in 127..160, so it is never empty |
| KeyGen.KeyBytesMapVisible | www/outsystems-secure-sqlite-init.js:156-162 | decoding a generated key gives back the random bytes in draw order |
| KeyGen.GenerateKeyInjective | www/outsystems-secure-sqlite-init.js:148-163 | different random draws give different keys |
| SecureStore.ApplySet | www/outsystems-secure-sqlite-init.js:59-70 | a successful `set` stores the value under the name and changes nothing else; a failed one changes nothing |
| Provisioning.EndingSettlesOnce | www/outsystems-secure-sqlite-init.js:26-114 | when the calls made before settling contain no continuation, exit or notice, the full trace holds exactly one terminal event, last, and it reports the outcome; a notice is shown only immediately before leaving, exactly when the outcome says so |
| Provisioning.RewriteLsk | www/outsystems-secure-sqlite-init.js:124-141 | migration reads the entry first, writes back only the value it read under the same name, writes nothing when the read fails, never settles the acquisition, and leaves a coherent store as it was |
| Provisioning.ReadExisting | www/outsystems-secure-sqlite-init.js:44-53 | the only call is the `get`; succeeds exactly when the read does; on success it caches and delivers the read value; on failure it reports that error and leaves the cache as it was |
| Provisioning.GenerateAndStore | www/outsystems-secure-sqlite-init.js:57-70 | the only call is one `set` of the freshly generated key; succeeds exactly when that `set` does, and only then caches and delivers the key; a failed `set` leaves the cache `undefined`, the store unchanged, and reports the error |
| Provisioning.ListAndResolve | www/outsystems-secure-sqlite-init.js:39-83 | lists the names first; a listed key is only read, never written; after a `keys` failure nothing else is called, and it leaves with the authentication notice if authentication was skipped, otherwise reports the error |
| Provisioning.Remediated | www/outsystems-secure-sqlite-init.js:87-93 | `initFn` is re-entered exactly when the failure is not an abandon case, the message is "Device is not secure", the user confirmed and `secureDevice` succeeded |
| Provisioning.OnOpened | www/outsystems-secure-sqlite-init.js:36-84 | after an open, migration runs first and the keys listing always follows, as the call right after the migration's calls, whatever the migration met; only the LSK entry can change; a success caches exactly the delivered string key |
| Provisioning.OnOpenFailed | www/outsystems-secure-sqlite-init.js:86-110 | an unremediated failed open never succeeds and never writes; it reports the error exactly for failures outside the three recognised cases; it leaves after the upgrade notice exactly for a failed migration and otherwise leaves quietly; it prompts exactly for an insecure device |
| Provisioning.InitFn | www/outsystems-secure-sqlite-init.js:34-113 | each pass opens the store first; across remediated retries the run settles at most once, writes only the LSK entry, and caches exactly a delivered key; an unresolved run changes neither cache nor store |
| Provisioning.Acquire | www/outsystems-secure-sqlite-init.js:26-114 | a truthy cache is delivered at once with no call at all; otherwise the store is opened first; exactly one of success, error or exit ends the trace, as its last event; a notice comes only right before an exit; only the LSK entry is ever written |
| ProvisioningProps.RewriteWrites | www/outsystems-secure-sqlite-init.js:124-141 | the migration writes exactly the value it read, and nothing when the read fails |
| ProvisioningProps.ListAndResolveWrites | www/outsystems-secure-sqlite-init.js:39-83 | the keys continuation writes the generated key exactly when the names were listed without the LSK, and nothing else |
| ProvisioningProps.OnOpenedWrites | www/outsystems-secure-sqlite-init.js:37-84 | the writes of a pass that opened the store are exactly the migration write-back of the value read, then the generated key when the name was not listed |
| ProvisioningProps.MigrationIsBestEffort | www/outsystems-secure-sqlite-init.js:124-141 | however the migration read and write complete, the acquisition ends with the same outcome and cache |
| ProvisioningProps.OnOpenedBeyondMigration | www/outsystems-secure-sqlite-init.js:36-84 | a pass that opened the store ends with the same outcome and cache whatever the migration read and write met |
| ProvisioningProps.InitFnBeyondMigration | www/outsystems-secure-sqlite-init.js:34-113 | across retries, scripts that differ only in the migration results give the same outcome and cache |
| ProvisioningProps.InitFnCoherent | www/outsystems-secure-sqlite-init.js:34-113 | against a coherent store a success delivers and caches the stored key, an existing key is kept, a failure leaves the store and a falsy cache, and a first-launch key has 16 characters |
| ProvisioningProps.OnOpenedCoherentWrites | www/outsystems-secure-sqlite-init.js:36-84 | a coherent pass that opened the store writes only the existing key back when it exists, and otherwise at most the one generated key, which is the delivered one on success |
| ProvisioningProps.InitFnCoherentWrites | www/outsystems-secure-sqlite-init.js:34-113 | against a coherent store, with the entry present only its own value is written; without it at most one key is written, and exactly the delivered key on success |
| ProvisioningProps.AcquireDeliversStoredKey | www/outsystems-secure-sqlite-init.js:26-114 | the cache only ever holds the persisted key, and a success delivers exactly the key the store holds |
| ProvisioningProps.ExistingKeyNeverReplaced | www/outsystems-secure-sqlite-init.js:42-53 | with the key present the store ends as it was, and the only value ever written is the existing key, rewritten |
| ProvisioningProps.FirstLaunchWritesOnce | www/outsystems-secure-sqlite-init.js:57-70 | on a first launch at most one key is written; on success it is the delivered, cached 16-character key, and the store gains exactly that entry |
| ProvisioningProps.RestartReadsSameKey | www/outsystems-secure-sqlite-init.js:42-53 | after a first launch stored a key, a restarted process leaves the store as it is, writes nothing but that same key back, and delivers the same one |
| ProvisioningProps.SecondAcquireHitsCache | www/outsystems-secure-sqlite-init.js:28-31 | once a non-empty key was delivered, the next acquisition returns it again with no store call |
| Provisioning.ClassifyOpenFailure | www/outsystems-secure-sqlite-init.js:87-109 | the four open-failure cases as ordered tests, with the `indexOf(...) === 0` test read as a prefix test: skipped authentication or code `OS-PLUG-KSTR-0010`, then "Device is not secure", then a message starting with "MIGRATION FAILED", then anything else |
| ProvisioningProps.FailedOpenEvents | www/outsystems-secure-sqlite-init.js:86-110 | the exact events of an unremediated failed open: exit only; prompt (and `secureDevice` if accepted) then exit; notice then exit; or the error continuation, never a key and never another store call |
| ProvisioningProps.ReopenOnlyAfterRemediation | www/outsystems-secure-sqlite-init.js:91-93 | the store is only ever opened again immediately after a `secureDevice` call (that the call succeeded is the `deviceSecured` part of `Provisioning.Remediated`) |
| ProvisioningProps.UnlistedEntryIsOverwritten | www/outsystems-secure-sqlite-init.js:42-70 | the decision to generate rests on the listing alone: a listing that misses the entry gets the stored key replaced by a fresh one |
| ProvisioningMachine.Step | www/outsystems-secure-sqlite-init.js:26-141 | each transition either consumes an attempt (remediation) or moves to a strictly later phase, so the machine always terminates |
| ProvisioningMachine.OpeningAgreesWithInitFn | www/outsystems-secure-sqlite-init.js:34-113 | from the Opening phase the machine performs exactly what `initFn` does, after the events already issued |
| ProvisioningMachine.MachineAgreesWithAcquire | www/outsystems-secure-sqlite-init.js:26-114 | the explicit state machine and `acquireLsk` give the same outcome, cache, store and events on every input |
| Interceptor.DefaultLocation | www/outsystems-secure-sqlite-init.js:189-191 | `location` is set to `'default'` only when it is undefined; every other property is kept |
| Interceptor.CloneOwn | www/outsystems-secure-sqlite-init.js:201-206 | the copy has exactly the caller's own properties, with their values |
| Interceptor.InjectKey | www/outsystems-secure-sqlite-init.js:200-214 | the copied options carry the acquired `key`, a defaulted `location`, and every other own property unchanged |
| Interceptor.OpenDatabase | www/outsystems-secure-sqlite-init.js:183-220 | a string `key` passes through on the caller's object without touching the store, and the handle is returned; that object keeps every property except a missing `location`, which is defaulted, and is unchanged when `location` was given; otherwise the caller's object is untouched and the open goes ahead exactly when the acquisition succeeds, with that key, the caller's other properties and the caller's `location` or `'default'`; the caller's error continuation is reached exactly on an acquisition error, with that error, an exit (and only an exit) abandons the call, an unresolved acquisition leaves the call pending, and the call's events, cache and store are those of the acquisition |
| Interceptor.ValidateDbOptions | www/outsystems-secure-sqlite-init.js:170-174 | validation passes exactly when `key` is a non-empty string |
| Interceptor.Deliver | www/outsystems-secure-sqlite-init.js:198-220 | the open goes ahead exactly on a successful acquisition, with that key injected; the caller's error continuation gets exactly the acquisition error; leaving the app ends the call |
| InterceptorProps.PassThroughScenario | www/outsystems-secure-sqlite-init.js:185-193 | `{key: "abc123"}` opens with `{key: "abc123", location: "default"}` and no key-store event |
| InterceptorProps.PassThroughKeepsLocation | www/outsystems-secure-sqlite-init.js:189-193 | a given `location` is passed through untouched |
| InterceptorProps.EmptyKeyPassesUnvalidated | www/outsystems-secure-sqlite-init.js:185-193 | an empty string key (unencrypted database) is passed through, although `validateDbOptions` would reject those options |
| InterceptorProps.InjectionScenario | www/outsystems-secure-sqlite-init.js:198-217 | with the store holding `"K1"`, `{}` is opened only with `{key: "K1", location: "default"}` and the caller's object stays empty |
| InterceptorProps.InjectionScenarioReached | www/outsystems-secure-sqlite-init.js:198-217 | a store that answers its first attempt does open `{}` with the stored key |
| InterceptorProps.GeneratedKeyValidates | www/outsystems-secure-sqlite-init.js:198-217 | on a first launch, the options a generated key is delivered with always pass `validateDbOptions` |
| InterceptorProps.InjectedOptionsValidate | www/outsystems-secure-sqlite-init.js:170-174 | injected options pass validation exactly when the acquired key is a non-empty string |

## Left out

- Module-load checks and `require` calls (lines 1-12): environment plumbing with no logic.
- Saving `window.sqlitePluginNoKey`, the `isSQLCipherPlugin` feature flag and installing the override (lines 176-182): assignments to global objects.
- `crypto.getRandomValues`: the 16 bytes are an input (`KeyGen.Draw`).
- The real key store, the SQLCipher open, `window.alert`/`window.confirm` and `navigator.app.exitApp`. Their outcomes are inputs and calls to them are recorded as events; notices are identified by `SecureStore.Notice` with their texts in `NoticeText`.
- `console.log` output.
- Concurrent acquisitions: interleaved callbacks of several `openDatabase` calls are not modelled. One acquisition runs to completion at a time.
- Provisioning.InitFn: the insecure-device retry is bounded by the script. A run that would retry beyond the script's attempts ends `Unresolved`, with no terminal event.
- Provisioning.Acquire: with a falsy cache and an empty script the run ends `Unresolved` without even the `OpenStore` event, although the code always opens the store (lines 34-35, 113). An empty script simply gives the collaborators no answers to the open.
- Provisioning.ClassifyOpenFailure: error messages are modelled as strings. A failure object without a string `message` would make the migration test throw, and that path is not modelled. Objects whose `toString` makes `code == "OS-PLUG-KSTR-0010"` true are not modelled either.
- Provisioning.ListAndResolve: a `keys` result of `null` (which old store versions could produce) would throw at `keys.indexOf`; the listing is always a sequence of names here.
- SecureStore.ApplySet: a failed `set` is assumed to leave the store unchanged.
- Interceptor.OpenDatabase: options are the caller's own properties. Inherited properties, getters and non-object options are not modelled. The `for…in` copy with `hasOwnProperty` (lines 202-203) takes only enumerable string-keyed own properties; non-enumerable and symbol-keyed properties are not modelled, so the model's copy takes every own property. The copy is also taken when `openDatabase` is called, whereas the code copies inside the success callback, after the asynchronous acquisition (lines 198-206), so changes the caller makes to its options while the key is pending would be copied there and are not modelled.
- Interceptor.Deliver: the caller's `errorCallback` is assumed to be present. When `openDatabase` is called without one, an acquisition error on the inject path (lines 198 and 219, reaching lines 51, 67, 80 or 108) calls `undefined` and throws a TypeError instead of reaching a continuation; that path is not modelled. The underlying `openDatabase` and the database handle it returns are not modelled; the model records the options it is called with and whether its return value reaches the caller.

=== FILE: interceptor.dfy ===
/**
 The `openDatabase` override: an options object that already carries a
 string `key` is passed through with only `location` defaulted; otherwise
 the Local Storage Key is acquired and put on a copy of the caller's own
 properties. Also `validateDbOptions`, which the override never calls.

 Options are the caller's own properties, a map from property name to value.
 The underlying `openDatabase` is not modelled; the model records the options
 it would be called with.
 */
module Interceptor {
  import opened JsValues
  import opened SecureStore
  import opened Provisioning

  type Options = map<string, JsValue>

  const KEY: string := "key"
  const LOCATION: string := "location"
  const DEFAULT_LOCATION: JsValue := Str("default")

  /** `options[name]`: a missing property reads as `undefined`. */
  function Prop(o: Options, name: string): JsValue {
    if name in o then o[name] else Undefined
  }

  /** `if (o.location === undefined) o.location = 'default'`. */
  function DefaultLocation(o: Options): (o': Options)
    ensures Prop(o', LOCATION) != Undefined
    ensures Prop(o, LOCATION) != Undefined ==> o' == o
    ensures Prop(o, LOCATION) == Undefined ==> Prop(o', LOCATION) == DEFAULT_LOCATION
    ensures o' - {LOCATION} == o - {LOCATION}
  {
    if Prop(o, LOCATION) == Undefined then o[LOCATION := DEFAULT_LOCATION] else o
  }

  /** The clone loop: every own property of `o` copied onto a fresh object. */
  method CloneOwn(o: Options) returns (n: Options)
    ensures n == o
  {
    n := map[];
    var pending := o.Keys;
    while pending != {}
      invariant pending <= o.Keys
      invariant n.Keys == o.Keys - pending
      invariant forall p :: p in n ==> n[p] == o[p]
      decreases pending
    {
      var p :| p in pending;
      n := n[p := o[p]];
      pending := pending - {p};
    }
  }

  /** The options the acquired `key` is delivered with: the caller's own
      properties, `location` defaulted, `key` overwritten. */
  function InjectKey(o: Options, key: JsValue): (n: Options)
    ensures Prop(n, KEY) == key
    ensures Prop(n, LOCATION) == if Prop(o, LOCATION) == Undefined then DEFAULT_LOCATION else Prop(o, LOCATION)
    ensures forall p :: p != KEY && p != LOCATION ==> (p in n <==> p in o)
    ensures forall p :: p in n && p != KEY && p != LOCATION ==> n[p] == o[p]
  {
    DefaultLocation(o)[KEY := key]
  }

  /** How the call ends for the caller: the underlying open is called with
      some options, the error continuation is called, the app exits, or the
      key acquisition is still pending when the script ran out. */
  datatype Delivery = Delegated(options: Options) | Failed(err: JsError) | Abandoned | Pending

  /** The effect of one `openDatabase` call: the caller's options object
      afterwards, how the call ends, the process cache and store afterwards,
      the key-store events issued, and whether the underlying open's return
      value (the database handle) is returned synchronously. */
  datatype OpenCall = OpenCall(
    caller: Options,
    delivery: Delivery,
    cache: JsValue,
    store: Store,
    trace: seq<Event>,
    returnsHandle: bool)

  /** How an acquisition reaches the caller of the inject path: the
      success continuation opens with the key injected, the error
      continuation is the caller's own, and leaving the app ends everything. */
  function Deliver(options: Options, o: Outcome): (d: Delivery)
    ensures d.Delegated? <==> o.Success?
    ensures o.Success? ==> d.options == InjectKey(options, o.key)
    ensures d.Failed? <==> o.Error?
    ensures o.Error? ==> d.err == o.err
    ensures d.Abandoned? <==> o.Exit?
  {
    match o
    case Success(k) => Delegated(InjectKey(options, k))
    case Error(e) => Failed(e)
    case Exit(_) => Abandoned
    case Unresolved => Pending
  }

  /** The overridden `openDatabase(options, ...)`. */
  function OpenDatabase(options: Options, cache: JsValue, store: Store, script: seq<Attempt>): (call: OpenCall)
    ensures IsString(Prop(options, KEY)) ==>
              && call.delivery == Delegated(call.caller)
              && Prop(call.caller, KEY) == Prop(options, KEY)
              && call.trace == [] && call.cache == cache && call.store == store
              && call.returnsHandle
              && call.caller - {LOCATION} == options - {LOCATION}
              && (Prop(options, LOCATION) != Undefined ==> call.caller == options)
    ensures !IsString(Prop(options, KEY)) ==> call.caller == options && !call.returnsHandle
    ensures call.delivery.Delegated? ==>
              Prop(call.delivery.options, LOCATION)
              == if Prop(options, LOCATION) == Undefined then DEFAULT_LOCATION else Prop(options, LOCATION)
    ensures call.delivery.Delegated? && !IsString(Prop(options, KEY)) ==>
              && Acquire(cache, store, script).outcome.Success?
              && Prop(call.delivery.options, KEY) == Acquire(cache, store, script).outcome.key
              && call.delivery.options - {KEY, LOCATION} == options - {KEY, LOCATION}
    ensures !IsString(Prop(options, KEY)) ==>
              var r := Acquire(cache, store, script);
              && (call.delivery.Delegated? <==> r.outcome.Success?)
              && (call.delivery.Failed? <==> r.outcome.Error?)
              && (r.outcome.Error? ==> call.delivery == Failed(r.outcome.err))
              && (call.delivery == Abandoned <==> r.outcome.Exit?)
              && (r.outcome.Unresolved? ==> call.delivery == Pending)
              && call.trace == Trace(r) && call.cache == r.cache && call.store == r.store
  {
    if IsString(Prop(options, KEY)) then
      var given := DefaultLocation(options);
      OpenCall(given, Delegated(given), cache, store, [], true)
    else
      var r := Acquire(cache, store, script);
      OpenCall(options, Deliver(options, r.outcome), r.cache, r.store, Trace(r), false)
  }

  /** `validateDbOptions`: throws unless `key` is a non-empty string. */
  datatype Validation = Valid | Throws(message: string)

  function ValidateDbOptions(o: Options): (v: Validation)
    ensures v.Valid? <==> Prop(o, KEY).Str? && Prop(o, KEY).s != ""
  {
    if !IsString(Prop(o, KEY)) || |Prop(o, KEY).s| == 0 then
      Throws("Attempting to open a database without a valid encryption key.")
    else Valid
  }
}

=== FILE: interceptor_props.dfy ===
/**
 Scenarios and properties of the `openDatabase` override, and how the
 options it delivers relate to `validateDbOptions`.
 */
module InterceptorProps {
  import opened JsValues
  import opened SecureStore
  import opened Provisioning
  import opened ProvisioningProps
  import opened Interceptor
  import KeyGen

  /** An explicit key is passed through untouched except for `location`:
      `{key: "abc123"}` opens with `{key: "abc123", location: "default"}`
      without consulting the key store. */
  lemma PassThroughScenario(cache: JsValue, store: Store, script: seq<Attempt>)
    ensures var call := OpenDatabase(map[KEY := Str("abc123")], cache, store, script);
      && call.delivery == Delegated(map[KEY := Str("abc123"), LOCATION := Str("default")])
      && call.trace == []
      && call.store == store
  {
    var o := map[KEY := Str("abc123")];
    assert Prop(o, LOCATION) == Undefined;
  }

  /** An explicit location is kept as the caller gave it. */
  lemma PassThroughKeepsLocation(options: Options, cache: JsValue, store: Store, script: seq<Attempt>)
    requires IsString(Prop(options, KEY)) && Prop(options, LOCATION) != Undefined
    ensures OpenDatabase(options, cache, store, script).delivery == Delegated(options)
  {
  }

  /** An empty explicit key (an unencrypted database) is passed through as
      well, although `validateDbOptions` would reject the options it is
      opened with: the override never validates. */
  lemma EmptyKeyPassesUnvalidated(options: Options, cache: JsValue, store: Store, script: seq<Attempt>)
    requires Prop(options, KEY) == Str("")
    ensures var call := OpenDatabase(options, cache, store, script);
      && call.delivery.Delegated?
      && call.trace == []
      && ValidateDbOptions(call.delivery.options).Throws?
  {
    var call := OpenDatabase(options, cache, store, script);
    assert Prop(call.delivery.options, KEY) == Str("");
  }

  /** With no key given and the store holding `"K1"`, `{}` is opened with
      exactly `{key: "K1", location: "default"}` whenever it is opened,
      and the caller's object stays empty. */
  lemma InjectionScenario(store: Store, script: seq<Attempt>)
    requires Coherent(store, script)
    requires LSK_NAME in store && store[LSK_NAME] == "K1"
    ensures var call := OpenDatabase(map[], INITIAL_CACHE, store, script);
      && call.caller == map[]
      && (call.delivery.Delegated? ==>
            call.delivery.options == map[KEY := Str("K1"), LOCATION := Str("default")])
  {
    var call := OpenDatabase(map[], INITIAL_CACHE, store, script);
    AcquireDeliversStoredKey(INITIAL_CACHE, store, script);
    ExistingKeyNeverReplaced(INITIAL_CACHE, store, script);
    if call.delivery.Delegated? {
      var n := call.delivery.options;
      assert n == InjectKey(map[], Str("K1"));
      assert n == map[LOCATION := Str("default")][KEY := Str("K1")];
    }
  }

  /** A store that answers the first attempt opens `{}` with the stored key. */
  lemma InjectionScenarioReached(draw: KeyGen.Draw)
    ensures var store := map[LSK_NAME := "K1"];
      var a := Attempt(Opened, Got("K1"), Stored, Listed([LSK_NAME]), Got("K1"), Stored, false, false, draw);
      var call := OpenDatabase(map[], INITIAL_CACHE, store, [a]);
      && Coherent(store, [a])
      && call.delivery == Delegated(map[KEY := Str("K1"), LOCATION := Str("default")])
  {
    var store := map[LSK_NAME := "K1"];
    var a := Attempt(Opened, Got("K1"), Stored, Listed([LSK_NAME]), Got("K1"), Stored, false, false, draw);
    assert ArrayIndexOf([LSK_NAME], LSK_NAME) == 0;
    InjectionScenario(store, [a]);
  }

  /** On a first launch, the options a generated key is delivered with
      always pass `validateDbOptions`. */
  lemma GeneratedKeyValidates(options: Options, store: Store, script: seq<Attempt>)
    requires !IsString(Prop(options, KEY))
    requires Coherent(store, script) && LSK_NAME !in store
    ensures var call := OpenDatabase(options, INITIAL_CACHE, store, script);
      call.delivery.Delegated? ==> ValidateDbOptions(call.delivery.options) == Valid
  {
    FirstLaunchWritesOnce(store, script);
  }

  /** The options delivered after an acquisition pass `validateDbOptions`
      exactly when the acquired key is a non-empty string. */
  lemma InjectedOptionsValidate(options: Options, key: JsValue)
    ensures ValidateDbOptions(InjectKey(options, key)).Valid? <==> Truthy(key) && IsString(key)
  {
  }
}

=== FILE: js_values.dfy ===
/**
 The slice of JavaScript semantics the key-provisioning code relies on:
 dynamically typed values, truthiness, `typeof x === 'string'`, and the two
 `indexOf` searches (on a string and on an array of strings).
 */
module JsValues {

  /** A JavaScript value. Numbers are modelled as integers, so `NaN` and
      `-0` (both falsy) have no counterpart; this is harmless here because
      the key cache only ever holds a string or `undefined`. Objects are
      opaque. */
  datatype JsValue =
    | Undefined
    | Null
    | Bool(b: bool)
    | Num(n: int)
    | Str(s: string)
    | Obj(id: nat)

  /** JavaScript truthiness (`if (v)`): `undefined`, `null`, `false`, `0`
      and `""` are falsy; everything else is truthy. */
  function Truthy(v: JsValue): (t: bool)
    ensures !t <==> v in {Undefined, Null, Bool(false), Num(0), Str("")}
  {
    match v
    case Undefined => false
    case Null => false
    case Bool(b) => b
    case Num(n) => n != 0
    case Str(s) => s != ""
    case Obj(_) => true
  }

  /** `typeof v === 'string'` */
  predicate IsString(v: JsValue) {
    v.Str?
  }

  /** An error object as delivered to a failure callback: its `message`
      property and its `code` property (often undefined). */
  datatype JsError = JsError(message: string, code: JsValue)

  /** True when `p` occurs in `s` starting at index `i`. */
  predicate OccursAt(s: string, p: string, i: int) {
    0 <= i && i + |p| <= |s| && s[i..i + |p|] == p
  }

  /** `s.indexOf(p, from)`: the first index at or after `from` where `p`
      occurs in `s`, or -1 when there is none. */
  function IndexOfFrom(s: string, p: string, from: nat): (r: int)
    requires from <= |s|
    ensures r == -1 || (from <= r && OccursAt(s, p, r))
    ensures r == -1 ==> forall j :: from <= j ==> !OccursAt(s, p, j)
    ensures r != -1 ==> forall j :: from <= j < r ==> !OccursAt(s, p, j)
    decreases |s| - from
  {
    if from + |p| > |s| then -1
    else if s[from..from + |p|] == p then from
    else IndexOfFrom(s, p, from + 1)
  }

  /** `s.indexOf(p)` on strings. Positions count characters, where
      JavaScript counts UTF-16 code units; the two agree on position 0,
      the only result the code compares against. */
  function IndexOf(s: string, p: string): (r: int)
    ensures -1 <= r <= |s|
    ensures r == -1 || OccursAt(s, p, r)
    ensures forall j :: 0 <= j && (r == -1 || j < r) ==> !OccursAt(s, p, j)
  {
    IndexOfFrom(s, p, 0)
  }

  /** `s.indexOf(p) === 0` holds exactly when `p` is a prefix of `s`; this is
      how the open-failure handler recognises a "MIGRATION FAILED ..." message. */
  lemma IndexOfZeroIsPrefix(s: string, p: string)
    ensures IndexOf(s, p) == 0 <==> p <= s
  {
    if p <= s {
      assert s[0..|p|] == p;
      assert OccursAt(s, p, 0);
    }
  }

  /** `a.indexOf(x)` on an array of strings (strict equality): the first
      position holding `x`, or -1. */
  function ArrayIndexOf(a: seq<string>, x: string): (r: int)
    ensures -1 <= r < |a|
    ensures r >= 0 <==> x in a
    ensures r >= 0 ==> a[r] == x && forall j :: 0 <= j < r ==> a[j] != x
  {
    if a == [] then -1
    else if a[0] == x then 0
    else
      var k := ArrayIndexOf(a[1..], x);
      assert a == [a[0]] + a[1..];
      if k < 0 then -1 else k + 1
  }
}

=== FILE: key_gen.dfy ===
/**
 Generation of a new Local Storage Key: sixteen random bytes, each mapped to
 a character by `makeVisible` and concatenated in draw order. The
 random source itself is not modelled; the drawn bytes are an input.
 */
module KeyGen {

  newtype byte = x: int | 0 <= x < 256

  /** Number of random bytes drawn for one key (`new Uint8Array(16)`). */
  const KEY_BYTES: nat := 16

  /** One draw of the random source: exactly `KEY_BYTES` bytes. */
  type Draw = s: seq<byte> | |s| == KEY_BYTES witness seq(16, _ => 0 as byte)

  /** The code points `makeVisible` can produce: ASCII 32..126 and the band
      161..321 (Latin-1 supplement and Latin Extended-A). The band leaves out
      the C0 controls, DEL and the C1 controls (0..31 and 127..160), but it
      is not all printable: it holds symbols such as U+00D7 and the soft
      hyphen U+00AD, which is normally not displayed. */
  predicate IsKeyCode(n: int) {
    (32 <= n <= 126) || (161 <= n <= 321)
  }

  /** `makeVisible(c)`: add 32, and add 34 more when the sum reaches 127. */
  function MakeVisible(c: byte): (r: int)
    ensures IsKeyCode(r)
    ensures r <= 126 <==> c < 95
  {
    var d := c as int + 32;
    if d < 127 then d else d + 34
  }

  /** The inverse of `MakeVisible` on code points: the byte a key code
      point came from, or Nothing for a code point it never produces. */
  function ByteOf(n: int): (r: Maybe<byte>)
    ensures r.Just? <==> IsKeyCode(n)
  {
    if 32 <= n <= 126 then Just((n - 32) as byte)
    else if 161 <= n <= 321 then Just((n - 66) as byte)
    else Nothing
  }

  /** An optional value. */
  datatype Maybe<T> = Nothing | Just(value: T)

  /** `MakeVisible` loses nothing: `ByteOf` recovers the byte. */
  lemma ByteOfMakeVisible(c: byte)
    ensures ByteOf(MakeVisible(c)) == Just(c)
  {
  }

  /** Every key code point is produced by exactly the byte `ByteOf` names,
      so `MakeVisible` is a bijection from bytes onto the key band. */
  lemma MakeVisibleOnto(n: int)
    requires IsKeyCode(n)
    ensures MakeVisible(ByteOf(n).value) == n
  {
  }

  /** `MakeVisible` is strictly increasing, hence injective. */
  lemma MakeVisibleIncreasing(c1: byte, c2: byte)
    requires c1 < c2
    ensures MakeVisible(c1) < MakeVisible(c2)
  {
  }

  /** The character `String.fromCharCode(makeVisible(c))`. */
  function VisibleChar(c: byte): (ch: char)
    ensures IsKeyCode(ch as int)
    ensures ByteOf(ch as int) == Just(c)
  {
    MakeVisible(c) as char
  }

  /** The characters of a byte sequence, mapped one by one in order
      (`Array.prototype.map` followed by `join("")`). */
  function MapVisible(bytes: seq<byte>): (s: string)
    ensures |s| == |bytes|
    ensures forall i :: 0 <= i < |s| ==> s[i] == VisibleChar(bytes[i])
  {
    if bytes == [] then ""
    else [VisibleChar(bytes[0])] + MapVisible(bytes[1..])
  }

  /** `generateKey()` for the given random draw. */
  function GenerateKey(draw: Draw): (key: string)
    ensures |key| == KEY_BYTES
    ensures forall i :: 0 <= i < |key| ==> key[i] == VisibleChar(draw[i])
    ensures forall i :: 0 <= i < |key| ==> IsKeyCode(key[i] as int)
    ensures forall i :: 0 <= i < |key| ==> !(127 <= key[i] as int <= 160)
    ensures key != ""
  {
    MapVisible(draw)
  }

  /** Reading a key back into the bytes it was generated from, character by
      character. A character `makeVisible` never produces has no byte, and
      the decoding fails. */
  function KeyBytes(key: string): (r: Maybe<seq<byte>>)
    ensures r.Just? ==> |r.value| == |key|
  {
    if key == [] then Just([])
    else
      var b := ByteOf(key[0] as int);
      var rest := KeyBytes(key[1..]);
      if b.Just? && rest.Just? then Just([b.value] + rest.value) else Nothing
  }

  /** Decoding a key one character longer at the front. */
  lemma KeyBytesCons(c: char, key: string)
    ensures var b := ByteOf(c as int);
      var rest := KeyBytes(key);
      KeyBytes([c] + key) == if b.Just? && rest.Just? then Just([b.value] + rest.value) else Nothing
  {
    assert ([c] + key)[0] == c && ([c] + key)[1..] == key;
  }

  /** Mapping a byte sequence one byte longer at the front. */
  lemma MapVisibleCons(bytes: seq<byte>)
    requires bytes != []
    ensures MapVisible(bytes) == [VisibleChar(bytes[0])] + MapVisible(bytes[1..])
  {
  }

  /** The byte behind the character `VisibleChar(c)` is `c`. */
  lemma VisibleCharByte(c: byte)
    ensures ByteOf(VisibleChar(c) as int) == Just(c)
  {
    ByteOfMakeVisible(c);
  }

  /** Decoding a mapped sequence recovers the bytes, in draw order. */
  lemma {:induction false} KeyBytesMapVisible(bytes: seq<byte>)
    ensures KeyBytes(MapVisible(bytes)) == Just(bytes)
  {
    if bytes != [] {
      MapVisibleCons(bytes);
      KeyBytesCons(VisibleChar(bytes[0]), MapVisible(bytes[1..]));
      VisibleCharByte(bytes[0]);
      KeyBytesMapVisible(bytes[1..]);
      assert [bytes[0]] + bytes[1..] == bytes;
    }
  }

  /** Distinct draws give distinct keys: key generation is injective. */
  lemma GenerateKeyInjective(d1: Draw, d2: Draw)
    requires GenerateKey(d1) == GenerateKey(d2)
    ensures d1 == d2
  {
    KeyBytesMapVisible(d1);
    KeyBytesMapVisible(d2);
  }
}

=== FILE: provisioning.dfy ===
/**
 The key-provisioning state machine of `acquireLsk`: the process cache, the
 opening of the key store, the best-effort migration rewrite, and reading or
 generating the Local Storage Key. A failure of the migration read or write
 is swallowed and the keys listing runs anyway; every other failure is sent to
 exactly one of the error continuation, leaving the app, or remediation and
 retry.

 The nested callbacks become pure functions. One acquisition is a `Run`: the
 outcome the caller observes, the new value of the process cache, the store
 after any successful writes, and the events issued, in order.
 */
module Provisioning {
  import opened JsValues
  import opened SecureStore
  import KeyGen

  /** Initial value of the process cache (`var lskCache = ""`). */
  const INITIAL_CACHE: JsValue := Str("")

  /** How the app is left: at once, or after a blocking notice. */
  datatype Leave = Quietly | AfterNotice(notice: Notice)

  /** How an acquisition ends for its caller. `Exit` leaves the app and calls
      neither continuation. `Unresolved` means the script ran out while the
      code would still be retrying after a remediated insecure device. */
  datatype Outcome =
    | Success(key: JsValue)
    | Error(err: JsError)
    | Exit(leave: Leave)
    | Unresolved

  /** One acquisition: its outcome, the process cache and the store after
      it, and the calls it made before it settled, in order. The events
      that settle it follow from the outcome (`Ending`). */
  datatype Run = Run(outcome: Outcome, cache: JsValue, store: Store, calls: seq<Event>)

  /** The events that settle an acquisition with outcome `o`. */
  function Ending(o: Outcome): seq<Event> {
    match o
    case Success(k) => [SuccessCallback(k)]
    case Error(e) => [ErrorCallback(e)]
    case Exit(Quietly) => [ExitApp]
    case Exit(AfterNotice(n)) => [Alert(n), ExitApp]
    case Unresolved => []
  }

  /** Every event of a run, in order. */
  function Trace(r: Run): seq<Event> {
    r.calls + Ending(r.outcome)
  }

  /** Events that neither settle an acquisition nor show a notice. */
  predicate Unsettled(t: seq<Event>) {
    forall i :: 0 <= i < |t| ==> !IsTerminal(t[i]) && !t[i].Alert?
  }

  predicate NoSet(t: seq<Event>) {
    forall i :: 0 <= i < |t| ==> !t[i].SetEntry?
  }

  /** The terminal event that reports `o` to the caller. */
  function Report(o: Outcome): Event
    requires !o.Unresolved?
  {
    match o
    case Success(k) => SuccessCallback(k)
    case Error(e) => ErrorCallback(e)
    case Exit(_) => ExitApp
  }

  /** A trace settles at most once: an unresolved run issued no terminal
      event and no notice; any other run issued exactly one terminal event,
      as its last event, and it reports the outcome. A notice is shown only
      immediately before leaving the app, and exactly when the outcome says so. */
  predicate SettlesOnce(o: Outcome, t: seq<Event>) {
    && (forall i :: 0 <= i < |t| && t[i].Alert? ==> o.Exit? && o.leave.AfterNotice? && i == |t| - 2)
    && if o.Unresolved? then forall i :: 0 <= i < |t| ==> !IsTerminal(t[i])
       else
         && |t| > 0
         && t[|t| - 1] == Report(o)
         && (forall i :: 0 <= i < |t| - 1 ==> !IsTerminal(t[i]))
         && (o.Exit? && o.leave.AfterNotice? ==> |t| >= 2 && t[|t| - 2] == Alert(o.leave.notice))
  }

  /** A run whose calls neither settle it nor show a notice settles once,
      with exactly the events its outcome calls for. */
  lemma EndingSettlesOnce(r: Run)
    requires Unsettled(r.calls)
    ensures SettlesOnce(r.outcome, Trace(r))
  {
    var t := Trace(r);
    var e := Ending(r.outcome);
    assert forall i :: 0 <= i < |r.calls| ==> t[i] == r.calls[i];
    assert forall i :: |r.calls| <= i < |t| ==> t[i] == e[i - |r.calls|];
  }

  /** The `set` calls among the events, in the order they were issued. */
  function Writes(t: seq<Event>): (w: seq<Event>)
    ensures forall i :: 0 <= i < |w| ==> w[i].SetEntry?
    ensures |w| <= |t|
  {
    if t == [] then []
    else (if t[0].SetEntry? then [t[0]] else []) + Writes(t[1..])
  }

  /** Every write issued targets the Local Storage Key entry. */
  predicate WritesOnlyLsk(t: seq<Event>) {
    forall i :: 0 <= i < |t| ==> t[i].SetEntry? ==> t[i].name == LSK_NAME
  }

  /** The store differs from `before` at most in the Local Storage Key entry. */
  predicate OnlyLskChanged(before: Store, after: Store) {
    after - {LSK_NAME} == before - {LSK_NAME}
  }

  /** Prepends the calls `t` to a run: the outcome, cache and store are
      unchanged. */
  function Prefix(t: seq<Event>, r: Run): (r': Run)
    ensures r'.outcome == r.outcome && r'.cache == r.cache && r'.store == r.store
    ensures Unsettled(t) && Unsettled(r.calls) ==> Unsettled(r'.calls)
    ensures t != [] ==> |r'.calls| > 0 && r'.calls[0] == t[0]
    ensures WritesOnlyLsk(t) && WritesOnlyLsk(r.calls) ==> WritesOnlyLsk(r'.calls)
    ensures NoSet(t) && NoSet(r.calls) ==> NoSet(r'.calls)
  {
    var r' := r.(calls := t + r.calls);
    assert forall i :: |t| <= i < |r'.calls| ==> r'.calls[i] == r.calls[i - |t|];
    r'
  }

  /** The result of the migration rewrite: the store after it and the calls it made. */
  datatype Rewrite = Rewrite(store: Store, calls: seq<Event>)

  /** `rewriteLsk`: read the Local Storage Key entry and, when the read
      succeeds, write the value just read back under the same name. Every
      failure is swallowed; the continuation always runs next. */
  function RewriteLsk(store: Store, read: GetResult, write: SetResult): (m: Rewrite)
    ensures |m.calls| > 0 && m.calls[0] == GetEntry(LSK_NAME)
    ensures Unsettled(m.calls)
    ensures forall i :: 0 <= i < |m.calls| ==> m.calls[i].SetEntry? ==>
              read.Got? && m.calls[i] == SetEntry(LSK_NAME, read.value)
    ensures read.GetFailed? ==> NoSet(m.calls) && m.store == store
    ensures OnlyLskChanged(store, m.store)
    ensures GetCoherent(store, read) ==> m.store == store
  {
    match read
    case Got(v) =>
      Rewrite(ApplySet(store, LSK_NAME, v, write), [GetEntry(LSK_NAME), SetEntry(LSK_NAME, v)])
    case GetFailed(_) =>
      Rewrite(store, [GetEntry(LSK_NAME)])
  }

  /** The existing key is read (`ss.get`): on success it becomes the cached
      and delivered key; on failure the error is reported and the cache is
      left as it was. Nothing is written. */
  function ReadExisting(cache: JsValue, store: Store, read: GetResult): (r: Run)
    ensures r.store == store && r.calls == [GetEntry(LSK_NAME)]
    ensures r.outcome.Success? <==> read.Got?
    ensures read.Got? ==> r.outcome.key == Str(read.value) && r.cache == Str(read.value)
    ensures read.GetFailed? ==> r.outcome == Error(read.err) && r.cache == cache
  {
    var reading := [GetEntry(LSK_NAME)];
    match read
    case Got(v) => Run(Success(Str(v)), Str(v), store, reading)
    case GetFailed(e) => Run(Error(e), cache, store, reading)
  }

  /** No key exists yet: a fresh key is generated from the draw, the cache is
      cleared, and the key is written exactly once. The cache takes the new
      key only once the write succeeded; a failed write leaves it undefined. */
  function GenerateAndStore(store: Store, write: SetResult, draw: KeyGen.Draw): (r: Run)
    ensures r.calls == [SetEntry(LSK_NAME, KeyGen.GenerateKey(draw))]
    ensures r.outcome.Success? <==> write.Stored?
    ensures write.Stored? ==>
              && r.outcome.key == Str(KeyGen.GenerateKey(draw))
              && r.cache == r.outcome.key
              && LSK_NAME in r.store && r.store[LSK_NAME] == KeyGen.GenerateKey(draw)
    ensures write.SetFailed? ==> r.outcome == Error(write.err) && r.cache == Undefined && r.store == store
    ensures OnlyLskChanged(store, r.store)
  {
    var key := KeyGen.GenerateKey(draw);
    var writing := [SetEntry(LSK_NAME, key)];
    match write
    case Stored => Run(Success(Str(key)), Str(key), ApplySet(store, LSK_NAME, key, write), writing)
    case SetFailed(e) => Run(Error(e), Undefined, store, writing)
  }

  /** The keys continuation: list the entry names, then read the existing
      key when its name is listed, or generate one when it is not. A keys
      failure for a skipped authentication shows a notice and exits; any
      other keys failure is reported. */
  function ListAndResolve(cache: JsValue, store: Store, a: Attempt): (r: Run)
    ensures Unsettled(r.calls)
    ensures |r.calls| > 0 && r.calls[0] == ListKeys
    ensures !r.outcome.Unresolved?
    ensures WritesOnlyLsk(r.calls)
    ensures OnlyLskChanged(store, r.store)
    ensures a.keys.Listed? && LSK_NAME in a.keys.names ==> NoSet(r.calls) && r.store == store
    ensures a.keys.KeysFailed? ==>
              && r.calls == [ListKeys] && r.store == store && r.cache == cache
              && r.outcome == (if a.keys.err.message == AUTH_SKIPPED then Exit(AfterNotice(AuthRequired))
                               else Error(a.keys.err))
  {
    var listed := [ListKeys];
    match a.keys
    case KeysFailed(e) =>
      if e.message == AUTH_SKIPPED then Run(Exit(AfterNotice(AuthRequired)), cache, store, listed)
      else Run(Error(e), cache, store, listed)
    case Listed(names) =>
      if ArrayIndexOf(names, LSK_NAME) >= 0 then Prefix(listed, ReadExisting(cache, store, a.read))
      else Prefix(listed, GenerateAndStore(store, a.write, a.draw))
  }

  /** The four ways a failed open is handled, checked in this order. */
  datatype OpenFailure = Abandon | InsecureDevice | MigrationBroken | Recoverable

  function ClassifyOpenFailure(e: JsError): (c: OpenFailure)
    ensures var abandon := e.message == AUTH_SKIPPED || e.code == Str(KEYSTORE_NOT_READY);
      && (c == Abandon <==> abandon)
      && (c == InsecureDevice <==> !abandon && e.message == DEVICE_NOT_SECURE)
      && (c == MigrationBroken <==>
            !abandon && e.message != DEVICE_NOT_SECURE && MIGRATION_FAILED <= e.message)
      && (c == Recoverable <==>
            !abandon && e.message != DEVICE_NOT_SECURE && !(MIGRATION_FAILED <= e.message))
  {
    IndexOfZeroIsPrefix(e.message, MIGRATION_FAILED);
    if e.message == AUTH_SKIPPED || e.code == Str(KEYSTORE_NOT_READY) then Abandon
    else if e.message == DEVICE_NOT_SECURE then InsecureDevice
    else if IndexOf(e.message, MIGRATION_FAILED) == 0 then MigrationBroken
    else Recoverable
  }

  /** The user agreed to secure the device and remediation succeeded, so
      `initFn` runs again. */
  function Remediated(e: JsError, a: Attempt): (b: bool)
    ensures b <==> && !(e.message == AUTH_SKIPPED || e.code == Str(KEYSTORE_NOT_READY))
                   && e.message == DEVICE_NOT_SECURE && a.confirmed && a.deviceSecured
  {
    ClassifyOpenFailure(e) == InsecureDevice && a.confirmed && a.deviceSecured
  }

  /** The store opened: the migration rewrite runs, then the keys
      continuation, which always runs whatever the rewrite met. */
  function OnOpened(cache: JsValue, store: Store, a: Attempt): (r: Run)
    ensures Unsettled(r.calls)
    ensures !r.outcome.Unresolved?
    ensures |r.calls| > 0 && r.calls[0] == GetEntry(LSK_NAME)
    ensures var n := |RewriteLsk(store, a.migrationGet, a.migrationSet).calls|;
      n < |r.calls| && r.calls[n] == ListKeys
    ensures WritesOnlyLsk(r.calls)
    ensures OnlyLskChanged(store, r.store)
    ensures !r.outcome.Success? ==> r.cache == cache || r.cache == Undefined
    ensures r.outcome.Success? ==> r.cache == r.outcome.key && r.outcome.key.Str?
  {
    var m := RewriteLsk(store, a.migrationGet, a.migrationSet);
    Prefix(m.calls, ListAndResolve(cache, m.store, a))
  }

  /** Opening the store failed and no retry follows. A skipped
      authentication or a keystore that is not ready leaves the app at once;
      an insecure device leaves it after the user declines or remediation
      fails; a failed store migration shows a notice and leaves; anything
      else goes to the error continuation. The store is never touched again. */
  function OnOpenFailed(cache: JsValue, store: Store, e: JsError, a: Attempt): (r: Run)
    requires !Remediated(e, a)
    ensures Unsettled(r.calls) && NoSet(r.calls)
    ensures !r.outcome.Success? && !r.outcome.Unresolved?
    ensures r.cache == cache && r.store == store
    ensures r.outcome.Error? <==> ClassifyOpenFailure(e) == Recoverable
    ensures r.outcome.Error? ==> r.outcome.err == e
    ensures r.outcome.Exit? ==>
              r.outcome.leave == if ClassifyOpenFailure(e) == MigrationBroken then AfterNotice(UpgradeFailed) else Quietly
    ensures |r.calls| > 0 <==> ClassifyOpenFailure(e) == InsecureDevice
    ensures |r.calls| > 0 ==> r.calls[0] == ConfirmSecureDevice
  {
    match ClassifyOpenFailure(e)
    case Abandon => Run(Exit(Quietly), cache, store, [])
    case InsecureDevice =>
      if !a.confirmed then Run(Exit(Quietly), cache, store, [ConfirmSecureDevice])
      else Run(Exit(Quietly), cache, store, [ConfirmSecureDevice, SecureDevice])
    case MigrationBroken => Run(Exit(AfterNotice(UpgradeFailed)), cache, store, [])
    case Recoverable => Run(Error(e), cache, store, [])
  }

  /** `initFn`: one pass per attempt of the script, re-entered after the
      user agreed to secure the device and remediation succeeded. */
  function InitFn(cache: JsValue, store: Store, script: seq<Attempt>): (r: Run)
    ensures Unsettled(r.calls)
    ensures script != [] ==> |r.calls| > 0 && r.calls[0] == OpenStore(KEYSTORE_NAME)
    ensures WritesOnlyLsk(r.calls)
    ensures OnlyLskChanged(store, r.store)
    ensures !r.outcome.Success? ==> r.cache == cache || r.cache == Undefined
    ensures r.outcome.Success? ==> r.cache == r.outcome.key && r.outcome.key.Str?
    ensures r.outcome.Unresolved? ==> r.cache == cache && r.store == store
    decreases |script|
  {
    if script == [] then Run(Unresolved, cache, store, [])
    else
      var a := script[0];
      var opening := [OpenStore(KEYSTORE_NAME)];
      match a.open
      case Opened => Prefix(opening, OnOpened(cache, store, a))
      case OpenFailed(e) =>
        if Remediated(e, a) then
          Prefix(opening + [ConfirmSecureDevice, SecureDevice], InitFn(cache, store, script[1..]))
        else Prefix(opening, OnOpenFailed(cache, store, e, a))
  }

  /** `acquireLsk`: a truthy cache answers at once, without touching the
      store; otherwise the store is opened and `initFn` runs. */
  function Acquire(cache: JsValue, store: Store, script: seq<Attempt>): (r: Run)
    ensures Unsettled(r.calls) && SettlesOnce(r.outcome, Trace(r))
    ensures Truthy(cache) ==> r.outcome == Success(cache) && r.cache == cache && r.store == store && r.calls == []
    ensures !Truthy(cache) && script != [] ==> |r.calls| > 0 && r.calls[0] == OpenStore(KEYSTORE_NAME)
    ensures WritesOnlyLsk(r.calls)
    ensures OnlyLskChanged(store, r.store)
    ensures r.outcome.Success? ==> r.cache == r.outcome.key
  {
    var r := if Truthy(cache) then Run(Success(cache), cache, store, []) else InitFn(cache, store, script);
    EndingSettlesOnce(r);
    r
  }
}

=== FILE: provisioning_machine.dfy ===
/**
 The provisioning state machine written as an explicit transition system:
 CacheHit, Opening, Migrating, Listing, then ReadingExisting or Generating,
 with Remediating looping back to Opening and every failure ending in a
 terminal state. It is defined independently of the callback-shaped
 `Provisioning.Acquire`, and `MachineAgreesWithAcquire` proves that both
 produce the same outcome, cache, store and events for every input.
 */
module ProvisioningMachine {
  import opened JsValues
  import opened SecureStore
  import opened Provisioning
  import KeyGen

  datatype Phase =
    | CheckingCache
    | Opening
    | Migrating
    | Listing
    | ReadingExisting
    | Generating
    | Remediating
    | Done(outcome: Outcome)

  /** A machine configuration: the phase, the process cache, the store, the
      outcomes still to come (the head is the current attempt) and the
      events issued so far. */
  datatype Config = Config(phase: Phase, cache: JsValue, store: Store, script: seq<Attempt>, calls: seq<Event>)

  function Rank(p: Phase): nat {
    match p
    case CheckingCache => 6
    case Opening => 5
    case Remediating => 4
    case Migrating => 4
    case Listing => 3
    case ReadingExisting => 2
    case Generating => 2
    case Done(_) => 0
  }

  /** Ends the machine with outcome `o`, issuing the events `t`. */
  function Stop(c: Config, o: Outcome, t: seq<Event>): Config {
    c.(phase := Done(o), calls := c.calls + t)
  }

  /** One transition. Only the phases after Opening consult the current
      attempt, and only Remediating moves on to the next one. */
  function Step(c: Config): (d: Config)
    requires !c.phase.Done?
    requires c.phase != CheckingCache && c.phase != Opening ==> c.script != []
    ensures |d.script| < |c.script| || (d.script == c.script && Rank(d.phase) < Rank(c.phase))
    ensures d.phase != CheckingCache && !d.phase.Done? && d.phase != Opening ==> d.script != []
  {
    match c.phase
    case CheckingCache =>
      if Truthy(c.cache) then Stop(c, Success(c.cache), [])
      else c.(phase := Opening)
    case Opening =>
      if c.script == [] then Stop(c, Unresolved, [])
      else
        var c' := c.(calls := c.calls + [OpenStore(KEYSTORE_NAME)]);
        (match c.script[0].open
         case Opened => c'.(phase := Migrating)
         case OpenFailed(e) =>
           if e.message == AUTH_SKIPPED || e.code == Str(KEYSTORE_NOT_READY) then
             Stop(c', Exit(Quietly), [])
           else if e.message == DEVICE_NOT_SECURE then
             c'.(phase := Remediating)
           else if MIGRATION_FAILED <= e.message then
             Stop(c', Exit(AfterNotice(UpgradeFailed)), [])
           else
             Stop(c', Error(e), []))
    case Remediating =>
      var a := c.script[0];
      if !a.confirmed then Stop(c, Exit(Quietly), [ConfirmSecureDevice])
      else if !a.deviceSecured then Stop(c, Exit(Quietly), [ConfirmSecureDevice, SecureDevice])
      else c.(phase := Opening, script := c.script[1..], calls := c.calls + [ConfirmSecureDevice, SecureDevice])
    case Migrating =>
      var a := c.script[0];
      (match a.migrationGet
       case Got(v) =>
         var s := if a.migrationSet.Stored? then c.store[LSK_NAME := v] else c.store;
         c.(phase := Listing, store := s, calls := c.calls + [GetEntry(LSK_NAME), SetEntry(LSK_NAME, v)])
       case GetFailed(_) =>
         c.(phase := Listing, calls := c.calls + [GetEntry(LSK_NAME)]))
    case Listing =>
      var c' := c.(calls := c.calls + [ListKeys]);
      (match c.script[0].keys
       case KeysFailed(e) =>
         if e.message == AUTH_SKIPPED then Stop(c', Exit(AfterNotice(AuthRequired)), [])
         else Stop(c', Error(e), [])
       case Listed(names) =>
         if LSK_NAME in names then c'.(phase := ReadingExisting) else c'.(phase := Generating))
    case ReadingExisting =>
      (match c.script[0].read
       case Got(v) => Stop(c.(cache := Str(v)), Success(Str(v)), [GetEntry(LSK_NAME)])
       case GetFailed(e) => Stop(c, Error(e), [GetEntry(LSK_NAME)]))
    case Generating =>
      var a := c.script[0];
      var k := KeyGen.GenerateKey(a.draw);
      match a.write
      case Stored =>
        Stop(c.(cache := Str(k), store := c.store[LSK_NAME := k]), Success(Str(k)), [SetEntry(LSK_NAME, k)])
      case SetFailed(e) =>
        Stop(c.(cache := Undefined), Error(e), [SetEntry(LSK_NAME, k)])
  }

  /** Runs the machine until it reaches a terminal phase. */
  function Execute(c: Config): (d: Config)
    requires c.phase != CheckingCache && !c.phase.Done? && c.phase != Opening ==> c.script != []
    ensures d.phase.Done?
    decreases |c.script|, Rank(c.phase)
  {
    if c.phase.Done? then c else Execute(Step(c))
  }

  /** The run a finished machine describes. */
  function Result(d: Config): Run
    requires d.phase.Done?
  {
    Run(d.phase.outcome, d.cache, d.store, d.calls)
  }

  /** From Opening, the machine performs exactly what `initFn` does, after
      the events already issued. */
  lemma {:induction false} OpeningAgreesWithInitFn(cache: JsValue, store: Store, script: seq<Attempt>, t: seq<Event>)
    ensures var r := InitFn(cache, store, script);
      Result(Execute(Config(Opening, cache, store, script, t))) == r.(calls := t + r.calls)
    decreases |script|
  {
    if script == [] {
      var c := Config(Opening, cache, store, script, t);
      assert Execute(c) == Execute(Step(c)) == Step(c);
      assert t + [] == t;
    } else {
      var a := script[0];
      match a.open
      case Opened =>
        OpenedAgrees(cache, store, script, t);
      case OpenFailed(e) =>
        if Remediated(e, a) {
          OpeningAgreesWithInitFn(cache, store, script[1..], t + Retried());
          RetriedAgrees(cache, store, script, t);
        } else {
          FailedOpenAgrees(cache, store, script, t);
        }
    }
  }

  /** The events of a remediated attempt before `initFn` runs again. */
  function Retried(): seq<Event> {
    [OpenStore(KEYSTORE_NAME), ConfirmSecureDevice, SecureDevice]
  }

  /** An attempt whose open succeeded ends the machine as `initFn` ends. */
  lemma OpenedAgrees(cache: JsValue, store: Store, script: seq<Attempt>, t: seq<Event>)
    requires script != [] && script[0].open.Opened?
    ensures var r := InitFn(cache, store, script);
      Result(Execute(Config(Opening, cache, store, script, t))) == r.(calls := t + r.calls)
  {
    var c := Config(Opening, cache, store, script, t);
    var opening := [OpenStore(KEYSTORE_NAME)];
    var c1 := Config(Migrating, cache, store, script, t + opening);
    assert Execute(c) == Execute(Step(c)) == Execute(c1);
    MigratingAgrees(cache, store, script, t + opening);
    InitFnOpened(cache, store, script);
    AfterEarlierEvents(t, opening, OnOpened(cache, store, script[0]), Execute(c));
  }

  /** A remediated attempt hands over to the next one in the machine as in
      `initFn`; `rest` is what the next attempt is known to produce. */
  lemma RetriedAgrees(cache: JsValue, store: Store, script: seq<Attempt>, t: seq<Event>)
    requires script != [] && script[0].open.OpenFailed?
    requires Remediated(script[0].open.err, script[0])
    requires var r := InitFn(cache, store, script[1..]);
      Result(Execute(Config(Opening, cache, store, script[1..], t + Retried()))) == r.(calls := (t + Retried()) + r.calls)
    ensures var r := InitFn(cache, store, script);
      Result(Execute(Config(Opening, cache, store, script, t))) == r.(calls := t + r.calls)
  {
    var opening := [OpenStore(KEYSTORE_NAME)];
    var c := Config(Opening, cache, store, script, t);
    var c1 := Config(Remediating, cache, store, script, t + opening);
    var c2 := Config(Opening, cache, store, script[1..], t + Retried());
    StepOpenFailed(c);
    assert Step(c) == c1;
    assert (t + opening) + [ConfirmSecureDevice, SecureDevice] == t + Retried();
    assert Step(c1) == c2;
    assert Execute(c) == Execute(c1) == Execute(c2);
    InitFnRetried(cache, store, script);
    AfterEarlierEvents(t, Retried(), InitFn(cache, store, script[1..]), Execute(c));
  }

  /** `initFn` after a successful open: the open, then its continuation. */
  lemma InitFnOpened(cache: JsValue, store: Store, script: seq<Attempt>)
    requires script != [] && script[0].open.Opened?
    ensures InitFn(cache, store, script) == Prefix([OpenStore(KEYSTORE_NAME)], OnOpened(cache, store, script[0]))
  {
  }

  /** `initFn` after a remediated insecure device: the open, the prompt,
      the remediation, then `initFn` again on the rest of the script. */
  lemma InitFnRetried(cache: JsValue, store: Store, script: seq<Attempt>)
    requires script != [] && script[0].open.OpenFailed?
    requires Remediated(script[0].open.err, script[0])
    ensures InitFn(cache, store, script)
         == Prefix(Retried(), InitFn(cache, store, script[1..]))
  {
  }

  /** The machine's failed-open transition follows the same four-way
      classification as the open-failure handler. */
  lemma StepOpenFailed(c: Config)
    requires c.phase == Opening && c.script != [] && c.script[0].open.OpenFailed?
    ensures var e := c.script[0].open.err;
      var c' := c.(calls := c.calls + [OpenStore(KEYSTORE_NAME)]);
      Step(c) == match ClassifyOpenFailure(e)
        case Abandon => Stop(c', Exit(Quietly), [])
        case InsecureDevice => c'.(phase := Remediating)
        case MigrationBroken => Stop(c', Exit(AfterNotice(UpgradeFailed)), [])
        case Recoverable => Stop(c', Error(e), [])
  {
    IndexOfZeroIsPrefix(c.script[0].open.err.message, MIGRATION_FAILED);
  }

  /** `initFn` after a failed open with no retry: the open, then the
      open-failure handler. */
  lemma InitFnFailedOpen(cache: JsValue, store: Store, script: seq<Attempt>)
    requires script != [] && script[0].open.OpenFailed?
    requires !Remediated(script[0].open.err, script[0])
    ensures InitFn(cache, store, script)
         == Prefix([OpenStore(KEYSTORE_NAME)], OnOpenFailed(cache, store, script[0].open.err, script[0]))
  {
  }

  /** A failed open that is not followed by a retry ends the machine the
      way the open-failure handler ends `initFn`. */
  lemma FailedOpenAgrees(cache: JsValue, store: Store, script: seq<Attempt>, t: seq<Event>)
    requires script != [] && script[0].open.OpenFailed?
    requires !Remediated(script[0].open.err, script[0])
    ensures var r := InitFn(cache, store, script);
      Result(Execute(Config(Opening, cache, store, script, t))) == r.(calls := t + r.calls)
  {
    var f := OnOpenFailed(cache, store, script[0].open.err, script[0]);
    InitFnFailedOpen(cache, store, script);
    var d := FailedOpenMachine(cache, store, script, t);
    AfterEarlierEvents(t, [OpenStore(KEYSTORE_NAME)], f, d);
  }

  /** A finished machine that issued `t`, then `u`, then the events of `f`
      describes `f` prefixed by `u`, after `t`. */
  lemma AfterEarlierEvents(t: seq<Event>, u: seq<Event>, f: Run, d: Config)
    requires d.phase.Done?
    requires Result(d) == f.(calls := (t + u) + f.calls)
    ensures Result(d) == Prefix(u, f).(calls := t + Prefix(u, f).calls)
  {
    assert (t + u) + f.calls == t + (u + f.calls);
  }

  /** The machine after a failed open with no retry: the open event, then
      what the open-failure handler does. */
  lemma FailedOpenMachine(cache: JsValue, store: Store, script: seq<Attempt>, t: seq<Event>)
      returns (d: Config)
    requires script != [] && script[0].open.OpenFailed?
    requires !Remediated(script[0].open.err, script[0])
    ensures d == Execute(Config(Opening, cache, store, script, t))
    ensures var f := OnOpenFailed(cache, store, script[0].open.err, script[0]);
      Result(d) == f.(calls := (t + [OpenStore(KEYSTORE_NAME)]) + f.calls)
  {
    var a := script[0];
    var e := a.open.err;
    var c := Config(Opening, cache, store, script, t);
    var t1 := t + [OpenStore(KEYSTORE_NAME)];
    StepOpenFailed(c);
    d := Execute(c);
    if ClassifyOpenFailure(e) == InsecureDevice {
      var c1 := Config(Remediating, cache, store, script, t1);
      assert Step(c) == c1;
      assert d == Execute(c1) == Execute(Step(c1)) == Step(c1);
    } else {
      assert d == Execute(Step(c)) == Step(c);
    }
  }

  /** From Migrating, an opened attempt of the machine performs what the
      opened-store continuation does. */
  lemma MigratingAgrees(cache: JsValue, store: Store, script: seq<Attempt>, t: seq<Event>)
    requires script != [] && script[0].open.Opened?
    ensures var r := OnOpened(cache, store, script[0]);
      Result(Execute(Config(Migrating, cache, store, script, t))) == r.(calls := t + r.calls)
  {
    var a := script[0];
    var c := Config(Migrating, cache, store, script, t);
    var m := RewriteLsk(store, a.migrationGet, a.migrationSet);
    var c1 := Config(Listing, cache, m.store, script, t + m.calls);
    assert Step(c) == c1;
    assert Execute(c) == Execute(c1);
    ListingAgrees(cache, m.store, script, t + m.calls);
    var l := ListAndResolve(cache, m.store, a);
    assert (t + m.calls) + l.calls == t + (m.calls + l.calls);
  }

  /** From Listing, the machine performs what the keys continuation does. */
  lemma ListingAgrees(cache: JsValue, store: Store, script: seq<Attempt>, t: seq<Event>)
    requires script != []
    ensures var r := ListAndResolve(cache, store, script[0]);
      Result(Execute(Config(Listing, cache, store, script, t))) == r.(calls := t + r.calls)
  {
    var a := script[0];
    var c := Config(Listing, cache, store, script, t);
    var listed := [ListKeys];
    var c2 := c.(calls := t + listed);
    var r := ListAndResolve(cache, store, a);
    match a.keys
    case KeysFailed(_) =>
      assert Execute(c) == Execute(Step(c)) == Step(c);
    case Listed(names) =>
      var next := if LSK_NAME in names then c2.(phase := ReadingExisting) else c2.(phase := Generating);
      assert Step(c) == next;
      assert Execute(c) == Execute(next) == Execute(Step(next)) == Step(next);
      if LSK_NAME in names {
        var g := ReadExisting(cache, store, a.read);
        assert r.calls == listed + g.calls;
        assert (t + listed) + g.calls == t + r.calls;
      } else {
        var g := GenerateAndStore(store, a.write, a.draw);
        assert r.calls == listed + g.calls;
        assert (t + listed) + g.calls == t + r.calls;
      }
  }

  /** The explicit state machine and the callback-shaped `acquireLsk` agree
      on every input: same outcome, cache, store and events. */
  lemma MachineAgreesWithAcquire(cache: JsValue, store: Store, script: seq<Attempt>)
    ensures Result(Execute(Config(CheckingCache, cache, store, script, []))) == Acquire(cache, store, script)
  {
    var c := Config(CheckingCache, cache, store, script, []);
    if Truthy(cache) {
      assert Execute(c) == Execute(Step(c)) == Step(c);
    } else {
      assert Execute(c) == Execute(Step(c)) == Execute(Config(Opening, cache, store, script, []));
      OpeningAgreesWithInitFn(cache, store, script, []);
      assert [] + InitFn(cache, store, script).calls == InitFn(cache, store, script).calls;
    }
  }
}

=== FILE: provisioning_props.dfy ===
/**
 Properties of the key-provisioning state machine that relate several runs
 or hold only when the store answers coherently: the migration rewrite never
 changes the outcome, the delivered key is the persisted one, an existing key
 is never replaced, a first launch writes exactly one key which later
 launches read back, and the store is only reopened after remediation.
 */
module ProvisioningProps {
  import opened JsValues
  import opened SecureStore
  import opened Provisioning
  import KeyGen

  /** `Writes` distributes over concatenation of event sequences. */
  lemma {:induction false} WritesAppend(t1: seq<Event>, t2: seq<Event>)
    ensures Writes(t1 + t2) == Writes(t1) + Writes(t2)
  {
    if t1 == [] {
      assert t1 + t2 == t2;
    } else {
      var head := if t1[0].SetEntry? then [t1[0]] else [];
      assert (t1 + t2)[0] == t1[0];
      assert (t1 + t2)[1..] == t1[1..] + t2;
      WritesAppend(t1[1..], t2);
      assert Writes(t1 + t2) == head + (Writes(t1[1..]) + Writes(t2));
      assert head + (Writes(t1[1..]) + Writes(t2)) == (head + Writes(t1[1..])) + Writes(t2);
    }
  }

  lemma {:induction false} WritesNone(t: seq<Event>)
    requires NoSet(t)
    ensures Writes(t) == []
  {
    if t != [] {
      assert !t[0].SetEntry?;
      WritesNone(t[1..]);
    }
  }

  /** At most one write, of the value `v` to the Local Storage Key entry. */
  predicate AtMostRewrite(w: seq<Event>, v: string) {
    w == [] || w == [SetEntry(LSK_NAME, v)]
  }

  /** The write the migration rewrite issues: the value it read, if any. */
  function MigrationWrites(a: Attempt): seq<Event> {
    if a.migrationGet.Got? then [SetEntry(LSK_NAME, a.migrationGet.value)] else []
  }

  /** The write the keys continuation issues: the generated key, and only
      when the entry names were listed without the Local Storage Key. */
  function GenerationWrites(a: Attempt): seq<Event> {
    if a.keys.Listed? && LSK_NAME !in a.keys.names then [SetEntry(LSK_NAME, KeyGen.GenerateKey(a.draw))]
    else []
  }

  /** The migration rewrite writes back the value it read, if any. */
  lemma RewriteWrites(store: Store, a: Attempt)
    ensures Writes(RewriteLsk(store, a.migrationGet, a.migrationSet).calls) == MigrationWrites(a)
  {
    var m := RewriteLsk(store, a.migrationGet, a.migrationSet);
    if a.migrationGet.Got? {
      assert m.calls == [GetEntry(LSK_NAME)] + [SetEntry(LSK_NAME, a.migrationGet.value)];
      WritesAppend([GetEntry(LSK_NAME)], [SetEntry(LSK_NAME, a.migrationGet.value)]);
    } else {
      WritesNone(m.calls);
    }
  }

  /** The keys continuation writes the generated key exactly when the
      names were listed without the Local Storage Key. */
  lemma ListAndResolveWrites(cache: JsValue, store: Store, a: Attempt)
    ensures Writes(ListAndResolve(cache, store, a).calls) == GenerationWrites(a)
  {
    var l := ListAndResolve(cache, store, a);
    match a.keys
    case Listed(names) =>
      if LSK_NAME in names {
        WritesNone(l.calls);
      } else {
        var g := GenerateAndStore(store, a.write, a.draw);
        assert l.calls == [ListKeys] + g.calls;
        WritesAppend([ListKeys], g.calls);
      }
    case KeysFailed(_) =>
      WritesNone(l.calls);
  }

  /** The writes of a pass that opened the store: the migration write-back
      of the value read, then the generated key if no key was listed, and
      nothing else. */
  lemma OnOpenedWrites(cache: JsValue, store: Store, a: Attempt)
    ensures Writes(OnOpened(cache, store, a).calls) == MigrationWrites(a) + GenerationWrites(a)
  {
    var m := RewriteLsk(store, a.migrationGet, a.migrationSet);
    var l := ListAndResolve(cache, m.store, a);
    assert OnOpened(cache, store, a).calls == m.calls + l.calls;
    WritesAppend(m.calls, l.calls);
    RewriteWrites(store, a);
    ListAndResolveWrites(cache, m.store, a);
  }

  // ---------------------------------------------------------------------
  // Migration is best effort

  /** Two attempts that differ at most in how the migration read and write
      complete. */
  predicate SameBeyondMigration(a: Attempt, b: Attempt) {
    a.(migrationGet := b.migrationGet, migrationSet := b.migrationSet) == b
  }

  predicate ScriptsBeyondMigration(s1: seq<Attempt>, s2: seq<Attempt>) {
    |s1| == |s2| && forall i :: 0 <= i < |s1| ==> SameBeyondMigration(s1[i], s2[i])
  }

  /** The keys continuation decides the outcome and the cache without
      looking at the store contents the rewrite left behind. */
  lemma ListAndResolveIgnoresStore(cache: JsValue, st1: Store, st2: Store, a: Attempt)
    ensures ListAndResolve(cache, st1, a).outcome == ListAndResolve(cache, st2, a).outcome
    ensures ListAndResolve(cache, st1, a).cache == ListAndResolve(cache, st2, a).cache
  {
  }

  /** Whatever the migration read and write meet, every acquisition ends with
      the same outcome and leaves the same cache as one whose migration
      trivially succeeded. */
  lemma {:induction false} MigrationIsBestEffort(cache: JsValue, store: Store, s1: seq<Attempt>, s2: seq<Attempt>)
    requires ScriptsBeyondMigration(s1, s2)
    ensures Acquire(cache, store, s1).outcome == Acquire(cache, store, s2).outcome
    ensures Acquire(cache, store, s1).cache == Acquire(cache, store, s2).cache
  {
    if !Truthy(cache) {
      InitFnBeyondMigration(cache, store, s1, s2);
    }
  }

  /** A pass that opened the store ends the same whatever the migration met. */
  lemma OnOpenedBeyondMigration(cache: JsValue, store: Store, a: Attempt, b: Attempt)
    requires SameBeyondMigration(a, b)
    ensures OnOpened(cache, store, a).outcome == OnOpened(cache, store, b).outcome
    ensures OnOpened(cache, store, a).cache == OnOpened(cache, store, b).cache
  {
    var m1 := RewriteLsk(store, a.migrationGet, a.migrationSet);
    var m2 := RewriteLsk(store, b.migrationGet, b.migrationSet);
    ListAndResolveIgnoresStore(cache, m1.store, m2.store, a);
    assert ListAndResolve(cache, m2.store, a) == ListAndResolve(cache, m2.store, b);
  }

  /** Attempts that differ only in the migration agree on everything else. */
  lemma SameBeyondMigrationFields(a: Attempt, b: Attempt)
    requires SameBeyondMigration(a, b)
    ensures a.open == b.open && a.keys == b.keys && a.read == b.read && a.write == b.write
    ensures a.confirmed == b.confirmed && a.deviceSecured == b.deviceSecured && a.draw == b.draw
  {
    assert a.(migrationGet := b.migrationGet, migrationSet := b.migrationSet).open == a.open;
  }

  lemma {:induction false} InitFnBeyondMigration(cache: JsValue, store: Store, s1: seq<Attempt>, s2: seq<Attempt>)
    requires ScriptsBeyondMigration(s1, s2)
    ensures InitFn(cache, store, s1).outcome == InitFn(cache, store, s2).outcome
    ensures InitFn(cache, store, s1).cache == InitFn(cache, store, s2).cache
    decreases |s1|
  {
    if s1 != [] {
      var a, b := s1[0], s2[0];
      assert SameBeyondMigration(a, b);
      SameBeyondMigrationFields(a, b);
      var opening := [OpenStore(KEYSTORE_NAME)];
      match a.open
      case Opened =>
        assert InitFn(cache, store, s1) == Prefix(opening, OnOpened(cache, store, a));
        assert InitFn(cache, store, s2) == Prefix(opening, OnOpened(cache, store, b));
        OnOpenedBeyondMigration(cache, store, a, b);
      case OpenFailed(e) =>
        if Remediated(e, a) {
          var retried := opening + [ConfirmSecureDevice, SecureDevice];
          assert InitFn(cache, store, s1) == Prefix(retried, InitFn(cache, store, s1[1..]));
          assert InitFn(cache, store, s2) == Prefix(retried, InitFn(cache, store, s2[1..]));
          forall i | 0 <= i < |s1| - 1
            ensures SameBeyondMigration(s1[1..][i], s2[1..][i])
          {
            assert s1[1..][i] == s1[i + 1] && s2[1..][i] == s2[i + 1];
          }
          InitFnBeyondMigration(cache, store, s1[1..], s2[1..]);
        } else {
          assert OnOpenFailed(cache, store, e, a) == OnOpenFailed(cache, store, e, b);
        }
    }
  }

  // ---------------------------------------------------------------------
  // Coherent stores

  /** A truthy cache holds exactly the key the store holds. */
  predicate CacheSound(cache: JsValue, store: Store) {
    Truthy(cache) ==> LSK_NAME in store && cache == Str(store[LSK_NAME])
  }

  /** One pass against a coherent store that opened: a success delivers,
      caches and keeps the stored key; anything else leaves the store as it
      was and the cache falsy. */
  lemma OnOpenedCoherent(cache: JsValue, store: Store, a: Attempt)
    requires !Truthy(cache)
    requires GetCoherent(store, a.migrationGet) && GetCoherent(store, a.read)
    requires KeysCoherent(store, a.keys)
    ensures var r := OnOpened(cache, store, a);
      && (r.outcome.Success? ==>
            LSK_NAME in r.store && r.outcome.key == Str(r.store[LSK_NAME]) && r.cache == r.outcome.key)
      && (!r.outcome.Success? ==> r.store == store && !Truthy(r.cache))
      && (LSK_NAME in store ==> r.store == store)
      && (LSK_NAME !in store && r.outcome.Success? ==> r.outcome.key == Str(KeyGen.GenerateKey(a.draw)))
  {
    var m := RewriteLsk(store, a.migrationGet, a.migrationSet);
    assert m.store == store;
    var l := ListAndResolve(cache, store, a);
    assert OnOpened(cache, store, a).outcome == l.outcome;
    match a.keys
    case Listed(names) =>
      if ArrayIndexOf(names, LSK_NAME) >= 0 {
        assert LSK_NAME in store;
      } else {
        assert LSK_NAME !in names;
      }
    case KeysFailed(_) =>
  }

  /** The writes of a coherent pass: with the entry present only its own
      value is written back; without it the migration read fails, so only
      the generated key can be written. */
  lemma CoherentWrites(store: Store, a: Attempt)
    requires GetCoherent(store, a.migrationGet) && KeysCoherent(store, a.keys)
    ensures LSK_NAME in store ==> AtMostRewrite(MigrationWrites(a) + GenerationWrites(a), store[LSK_NAME])
    ensures LSK_NAME !in store ==> MigrationWrites(a) == []
  {
    if LSK_NAME in store {
      assert GenerationWrites(a) == [];
      assert MigrationWrites(a) + [] == MigrationWrites(a);
    }
  }

  /** The tail of a coherent script is coherent. */
  lemma CoherentTail(store: Store, script: seq<Attempt>)
    requires script != [] && Coherent(store, script)
    ensures Coherent(store, script[1..])
  {
    forall i | 0 <= i < |script[1..]|
      ensures GetCoherent(store, script[1..][i].migrationGet)
        && GetCoherent(store, script[1..][i].read)
        && KeysCoherent(store, script[1..][i].keys)
    {
      assert script[1..][i] == script[i + 1];
    }
  }

  /** `initFn` against a coherent store, across any number of remediated
      retries: a success delivers, caches and keeps the stored key, an
      existing key is kept, and a key created on a first launch is a
      generated one. */
  lemma {:induction false} InitFnCoherent(cache: JsValue, store: Store, script: seq<Attempt>)
    requires !Truthy(cache)
    requires Coherent(store, script)
    ensures var r := InitFn(cache, store, script);
      && (r.outcome.Success? ==>
            LSK_NAME in r.store && r.outcome.key == Str(r.store[LSK_NAME]) && r.cache == r.outcome.key)
      && (!r.outcome.Success? ==> r.store == store && !Truthy(r.cache))
      && (LSK_NAME in store ==> r.store == store)
      && (LSK_NAME !in store && r.outcome.Success? ==> |r.outcome.key.s| == KeyGen.KEY_BYTES)
    decreases |script|
  {
    if script != [] {
      var a := script[0];
      assert GetCoherent(store, a.migrationGet) && GetCoherent(store, a.read) && KeysCoherent(store, a.keys);
      match a.open
      case Opened =>
        OnOpenedCoherent(cache, store, a);
      case OpenFailed(e) =>
        if Remediated(e, a) {
          CoherentTail(store, script);
          InitFnCoherent(cache, store, script[1..]);
        }
    }
  }

  /** The writes of a coherent pass that opened the store. */
  lemma OnOpenedCoherentWrites(cache: JsValue, store: Store, a: Attempt)
    requires !Truthy(cache)
    requires GetCoherent(store, a.migrationGet) && GetCoherent(store, a.read)
    requires KeysCoherent(store, a.keys)
    ensures var r := OnOpened(cache, store, a);
      && (LSK_NAME in store ==> AtMostRewrite(Writes(r.calls), store[LSK_NAME]))
      && (LSK_NAME !in store ==> |Writes(r.calls)| <= 1)
      && (LSK_NAME !in store && r.outcome.Success? ==> Writes(r.calls) == [SetEntry(LSK_NAME, r.outcome.key.s)])
  {
    var r := OnOpened(cache, store, a);
    OnOpenedWrites(cache, store, a);
    CoherentWrites(store, a);
    OnOpenedCoherent(cache, store, a);
    if LSK_NAME !in store && r.outcome.Success? {
      assert a.keys.Listed? && LSK_NAME !in a.keys.names;
    }
  }

  /** The writes of `initFn` against a coherent store: with the entry
      present, only its own value is ever written; without it, at most the
      one generated key, and exactly that key when a success follows. */
  lemma {:induction false} InitFnCoherentWrites(cache: JsValue, store: Store, script: seq<Attempt>)
    requires !Truthy(cache)
    requires Coherent(store, script)
    ensures var r := InitFn(cache, store, script);
      && (LSK_NAME in store ==> AtMostRewrite(Writes(r.calls), store[LSK_NAME]))
      && (LSK_NAME !in store ==> |Writes(r.calls)| <= 1)
      && (LSK_NAME !in store && r.outcome.Success? ==> Writes(r.calls) == [SetEntry(LSK_NAME, r.outcome.key.s)])
    decreases |script|
  {
    if script != [] {
      var a := script[0];
      assert GetCoherent(store, a.migrationGet) && GetCoherent(store, a.read) && KeysCoherent(store, a.keys);
      var opening := [OpenStore(KEYSTORE_NAME)];
      WritesNone(opening);
      match a.open
      case Opened =>
        OnOpenedCoherentWrites(cache, store, a);
        WritesAppend(opening, OnOpened(cache, store, a).calls);
      case OpenFailed(e) =>
        if Remediated(e, a) {
          var retried := opening + [ConfirmSecureDevice, SecureDevice];
          WritesNone(retried);
          CoherentTail(store, script);
          InitFnCoherentWrites(cache, store, script[1..]);
          WritesAppend(retried, InitFn(cache, store, script[1..]).calls);
        } else {
          var f := OnOpenFailed(cache, store, e, a);
          WritesNone(f.calls);
          WritesAppend(opening, f.calls);
        }
    }
  }

  /** Against a coherent store and a sound cache, an acquisition keeps the
      cache sound and delivers only the key the store holds. */
  lemma AcquireDeliversStoredKey(cache: JsValue, store: Store, script: seq<Attempt>)
    requires Coherent(store, script) && CacheSound(cache, store)
    ensures var r := Acquire(cache, store, script);
      && CacheSound(r.cache, r.store)
      && (r.outcome.Success? ==> LSK_NAME in r.store && r.outcome.key == Str(r.store[LSK_NAME]))
  {
    if !Truthy(cache) {
      InitFnCoherent(cache, store, script);
    }
  }

  /** An existing key is never replaced: with the entry present, the store
      ends exactly as it was and the only value ever written is the
      existing one, rewritten by the migration. */
  lemma ExistingKeyNeverReplaced(cache: JsValue, store: Store, script: seq<Attempt>)
    requires Coherent(store, script)
    requires LSK_NAME in store
    ensures var r := Acquire(cache, store, script);
      && r.store == store
      && AtMostRewrite(Writes(r.calls), store[LSK_NAME])
  {
    var r := Acquire(cache, store, script);
    if Truthy(cache) {
      WritesNone(r.calls);
    } else {
      InitFnCoherent(cache, store, script);
      InitFnCoherentWrites(cache, store, script);
    }
  }

  /** A store that differs from `before` at most in the Local Storage Key
      entry, and holds `v` there, is `before` with that entry set to `v`. */
  lemma OnlyLskEntryAdded(before: Store, after: Store, v: string)
    requires OnlyLskChanged(before, after)
    requires LSK_NAME in after && after[LSK_NAME] == v
    ensures after == before[LSK_NAME := v]
  {
    var expected := before[LSK_NAME := v];
    forall n | n != LSK_NAME
      ensures (n in after <==> n in expected) && (n in after ==> after[n] == expected[n])
    {
      assert n in after <==> n in after - {LSK_NAME};
      assert n in before <==> n in before - {LSK_NAME};
      if n in after {
        assert after[n] == (after - {LSK_NAME})[n];
        assert before[n] == (before - {LSK_NAME})[n];
      }
    }
    assert after.Keys == expected.Keys;
  }

  /** First launch: with no key stored, an acquisition writes at most one
      key, and a successful one wrote exactly the freshly generated key it
      delivers and caches, which is non-empty and so answers every later
      acquisition from the cache. */
  lemma FirstLaunchWritesOnce(store: Store, script: seq<Attempt>)
    requires Coherent(store, script)
    requires LSK_NAME !in store
    ensures var r := Acquire(INITIAL_CACHE, store, script);
      && |Writes(r.calls)| <= 1
      && (r.outcome.Success? ==>
            && Writes(r.calls) == [SetEntry(LSK_NAME, r.outcome.key.s)]
            && |r.outcome.key.s| == KeyGen.KEY_BYTES
            && Truthy(r.cache)
            && r.store == store[LSK_NAME := r.outcome.key.s])
  {
    var r := Acquire(INITIAL_CACHE, store, script);
    assert r == InitFn(INITIAL_CACHE, store, script);
    InitFnCoherent(INITIAL_CACHE, store, script);
    InitFnCoherentWrites(INITIAL_CACHE, store, script);
    if r.outcome.Success? {
      OnlyLskEntryAdded(store, r.store, r.outcome.key.s);
    }
  }

  /** Generate once: after a first launch stored a key, a restarted process
      (empty cache) reading a coherent store never writes another key, and
      if it succeeds it delivers the very same key. */
  lemma RestartReadsSameKey(store: Store, s1: seq<Attempt>, s2: seq<Attempt>)
    requires Coherent(store, s1) && LSK_NAME !in store
    requires Acquire(INITIAL_CACHE, store, s1).outcome.Success?
    requires Coherent(Acquire(INITIAL_CACHE, store, s1).store, s2)
    ensures var r1 := Acquire(INITIAL_CACHE, store, s1);
      var r2 := Acquire(INITIAL_CACHE, r1.store, s2);
      && r2.store == r1.store
      && AtMostRewrite(Writes(r2.calls), r1.outcome.key.s)
      && (r2.outcome.Success? ==> r2.outcome == r1.outcome)
  {
    var r1 := Acquire(INITIAL_CACHE, store, s1);
    FirstLaunchWritesOnce(store, s1);
    ExistingKeyNeverReplaced(INITIAL_CACHE, r1.store, s2);
    AcquireDeliversStoredKey(INITIAL_CACHE, r1.store, s2);
  }

  /** Idempotence: once an acquisition delivered a non-empty key, the next
      one in the same process returns it again without any store call. */
  lemma SecondAcquireHitsCache(cache: JsValue, store: Store, s1: seq<Attempt>, s2: seq<Attempt>)
    requires Acquire(cache, store, s1).outcome.Success?
    requires Truthy(Acquire(cache, store, s1).outcome.key)
    ensures var r1 := Acquire(cache, store, s1);
      var r2 := Acquire(r1.cache, r1.store, s2);
      && r2.outcome == r1.outcome
      && r2.calls == []
  {
  }

  // ---------------------------------------------------------------------
  // Open failures

  /** A failed first open that is not remediated ends the acquisition at
      once, with exactly these events: it fails closed, never reports a key
      and never touches the store again. */
  lemma FailedOpenEvents(cache: JsValue, store: Store, script: seq<Attempt>)
    requires !Truthy(cache) && script != []
    requires script[0].open.OpenFailed? && !Remediated(script[0].open.err, script[0])
    ensures var e := script[0].open.err;
      var r := Acquire(cache, store, script);
      var opening := OpenStore(KEYSTORE_NAME);
      && r.cache == cache && r.store == store
      && match ClassifyOpenFailure(e)
         case Abandon => r.outcome == Exit(Quietly) && Trace(r) == [opening, ExitApp]
         case InsecureDevice =>
           && r.outcome == Exit(Quietly)
           && Trace(r) == [opening, ConfirmSecureDevice]
                          + (if script[0].confirmed then [SecureDevice] else []) + [ExitApp]
         case MigrationBroken =>
           r.outcome == Exit(AfterNotice(UpgradeFailed)) && Trace(r) == [opening, Alert(UpgradeFailed), ExitApp]
         case Recoverable => r.outcome == Error(e) && Trace(r) == [opening, ErrorCallback(e)]
  {
    var e := script[0].open.err;
    assert Acquire(cache, store, script)
        == Prefix([OpenStore(KEYSTORE_NAME)], OnOpenFailed(cache, store, e, script[0]));
  }

  /** The store is opened again only immediately after a `secureDevice` call. */
  predicate ReopensOnlyAfterRemediation(t: seq<Event>) {
    forall i :: 0 < i < |t| && t[i].OpenStore? ==> t[i - 1] == SecureDevice
  }

  predicate NoOpen(t: seq<Event>) {
    forall i :: 0 <= i < |t| ==> !t[i].OpenStore?
  }

  /** A pass that opened the store does not open it again. */
  lemma OnOpenedNoOpen(cache: JsValue, store: Store, a: Attempt)
    ensures NoOpen(OnOpened(cache, store, a).calls)
  {
    var m := RewriteLsk(store, a.migrationGet, a.migrationSet);
    var l := ListAndResolve(cache, m.store, a);
    assert OnOpened(cache, store, a).calls == m.calls + l.calls;
    assert NoOpen(m.calls);
    match a.keys
    case KeysFailed(_) =>
    case Listed(names) =>
      if ArrayIndexOf(names, LSK_NAME) >= 0 {
        assert l.calls == [ListKeys] + ReadExisting(cache, m.store, a.read).calls;
      } else {
        assert l.calls == [ListKeys] + GenerateAndStore(m.store, a.write, a.draw).calls;
      }
  }

  lemma {:induction false} InitFnReopens(cache: JsValue, store: Store, script: seq<Attempt>)
    ensures ReopensOnlyAfterRemediation(InitFn(cache, store, script).calls)
    decreases |script|
  {
    if script != [] {
      var a := script[0];
      var opening := [OpenStore(KEYSTORE_NAME)];
      var t := InitFn(cache, store, script).calls;
      match a.open
      case Opened =>
        OnOpenedNoOpen(cache, store, a);
        assert t == opening + OnOpened(cache, store, a).calls;
      case OpenFailed(e) =>
        if Remediated(e, a) {
          var rest := InitFn(cache, store, script[1..]).calls;
          InitFnReopens(cache, store, script[1..]);
          assert t == opening + [ConfirmSecureDevice, SecureDevice] + rest;
          forall i | 0 < i < |t| && t[i].OpenStore?
            ensures t[i - 1] == SecureDevice
          {
            if i > 3 {
              assert t[i] == rest[i - 3] && t[i - 1] == rest[i - 4];
            }
          }
        } else {
          assert t == opening + OnOpenFailed(cache, store, e, a).calls;
        }
    }
  }

  /** Every reopening of the store comes immediately after a `secureDevice`
      call; that the call succeeded is part of `Remediated`. */
  lemma ReopenOnlyAfterRemediation(cache: JsValue, store: Store, script: seq<Attempt>)
    ensures ReopensOnlyAfterRemediation(Acquire(cache, store, script).calls)
  {
    if !Truthy(cache) {
      InitFnReopens(cache, store, script);
    }
  }

  /** Whether a key is generated rests on the listing alone: a listing that
      misses the entry while the store holds it (a store that answers
      incoherently) gets the stored key replaced by a fresh one. */
  lemma UnlistedEntryIsOverwritten(store: Store, a: Attempt)
    requires a.open == Opened && a.keys.Listed? && LSK_NAME !in a.keys.names
    requires a.write == Stored
    ensures var r := Acquire(INITIAL_CACHE, store, [a]);
      && r.outcome == Success(Str(KeyGen.GenerateKey(a.draw)))
      && LSK_NAME in r.store && r.store[LSK_NAME] == KeyGen.GenerateKey(a.draw)
  {
    var m := RewriteLsk(store, a.migrationGet, a.migrationSet);
    assert ArrayIndexOf(a.keys.names, LSK_NAME) < 0;
    assert ListAndResolve(INITIAL_CACHE, m.store, a).store == GenerateAndStore(m.store, a.write, a.draw).store;
  }
}

=== FILE: secure_store.dfy ===
/**
 The authenticated key store (the SecureStorage plugin) as the provisioning
 code sees it: a map from entry name to string, and a script saying how each
 asynchronous call it makes completes. The plugin's own encryption, the
 platform authentication UI and the dialogs are not modelled; their
 outcomes are inputs, and the calls made to them are recorded as events.
 */
module SecureStore {
  import opened JsValues
  import KeyGen

  /** Name of the whole store instance opened on every attempt. */
  const KEYSTORE_NAME: string := "outsystems-key-store"

  /** Name of the single entry holding the Local Storage Key. */
  const LSK_NAME: string := "outsystems-local-storage-key"

  /** Failure messages and codes the open and keys handlers discriminate on. */
  const AUTH_SKIPPED: string := "Authentication screen skipped"
  const DEVICE_NOT_SECURE: string := "Device is not secure"
  const MIGRATION_FAILED: string := "MIGRATION FAILED"
  const KEYSTORE_NOT_READY: string := "OS-PLUG-KSTR-0010"

  /** The blocking notices (`window.alert`) shown before leaving the app. */
  datatype Notice = AuthRequired | UpgradeFailed

  function NoticeText(n: Notice): string {
    match n
    case AuthRequired =>
      "Authentication required to use this app. Relaunch the app to try again."
    case UpgradeFailed =>
      "A feature on this app failed to be upgraded. Relaunch the app to try again."
  }

  /** Text of the one confirmation prompt (`window.confirm`). */
  const SECURE_DEVICE_PROMPT: string :=
    "In order to use this app, your device must have a secure lock screen. Press OK to setup your device."

  /** The persistent contents of the store: entry name to stored value. */
  type Store = map<string, string>

  /** How the store constructor (`new SecureStorage(...)`) completes. */
  datatype OpenResult = Opened | OpenFailed(err: JsError)

  /** How `ss.keys(...)` completes. */
  datatype KeysResult = Listed(names: seq<string>) | KeysFailed(err: JsError)

  /** How `ss.get(...)` completes. */
  datatype GetResult = Got(value: string) | GetFailed(err: JsError)

  /** How `ss.set(...)` completes. */
  datatype SetResult = Stored | SetFailed(err: JsError)

  /** Everything the outside world decides during one pass of `initFn`:
      the outcome of each collaborator call, in the order they can be made,
      the user's answer to the secure-device prompt, and the random bytes
      `generateKey` would draw. A field is only consulted when the pass
      reaches the call it describes. */
  datatype Attempt = Attempt(
    open: OpenResult,
    migrationGet: GetResult,
    migrationSet: SetResult,
    keys: KeysResult,
    read: GetResult,
    write: SetResult,
    confirmed: bool,
    deviceSecured: bool,
    draw: KeyGen.Draw)

  /** An observable action of the provisioning code: a call into the store,
      a dialog, leaving the app, or one of the caller's continuations. */
  datatype Event =
    | OpenStore(storeName: string)
    | GetEntry(name: string)
    | SetEntry(name: string, value: string)
    | ListKeys
    | ConfirmSecureDevice
    | SecureDevice
    | Alert(notice: Notice)
    | ExitApp
    | SuccessCallback(key: JsValue)
    | ErrorCallback(err: JsError)

  /** Events that end an acquisition: one of the two continuations, or exit. */
  predicate IsTerminal(e: Event) {
    e.SuccessCallback? || e.ErrorCallback? || e.ExitApp?
  }

  /** The effect of a `set` call on the store: a successful set writes the
      entry, a failed one leaves the store as it was. */
  function ApplySet(store: Store, name: string, value: string, result: SetResult): (s: Store)
    ensures result.Stored? ==> name in s && s[name] == value
    ensures forall n :: n != name ==> (n in s <==> n in store)
    ensures forall n :: n in s && n != name ==> s[n] == store[n]
    ensures result.SetFailed? ==> s == store
  {
    if result.Stored? then store[name := value] else store
  }

  /** A `get` result that agrees with the store's entry for `LSK_NAME`: a
      value is only read back when the entry exists, and it is the stored one. */
  predicate GetCoherent(store: Store, g: GetResult) {
    g.Got? ==> LSK_NAME in store && store[LSK_NAME] == g.value
  }

  /** A `keys` result that lists `LSK_NAME` exactly when the entry exists. */
  predicate KeysCoherent(store: Store, k: KeysResult) {
    k.Listed? ==> (LSK_NAME in k.names <==> LSK_NAME in store)
  }

  /** A script whose reads all agree with `store`: the store behaves as a
      faithful key-value map and only its failures are scripted. */
  predicate Coherent(store: Store, script: seq<Attempt>) {
    forall i :: 0 <= i < |script| ==>
      && GetCoherent(store, script[i].migrationGet)
      && GetCoherent(store, script[i].read)
      && KeysCoherent(store, script[i].keys)
  }
}
